=== FILE: README.md ===
# Product reservation locks, modelled in Dafny

A model of the reservation-lock engine of the OctaHexa Product Reservation Lock
plugin for WooCommerce. While a shopper is on the checkout page, every cart
line is locked in a database table. The lock is keyed on product, variation
and WooCommerce session, and expires a configured number of minutes later.
Other sessions are refused when they try to add a locked item to their cart.

Locks end in several ways:
- they lapse at their expiry time;
- an hourly sweep deletes them;
- they are released when the owner's order enters a final status;
- they are released when the owner's cart is emptied;
- an administrator deletes them.

The lock table is an immutable value `LockTable(rows, nextId)`:
- `rows` is a sequence of `Row(id, productId, variationId, userId, sessionId, lockTime, expiresAt)`.
- `nextId` is the table's next AUTO_INCREMENT value.

Time is one abstract integer clock in seconds. Each plugin operation is a pure function of the table, its inputs and `now`. The host's ambient lookups become explicit parameters: the current user id, the session id, the clock, the lock-duration setting, the nonce and capability verdicts, and the catalogue lookup.

Files:
- `results.dfy`: `Option` and `Result`.
- `seqs.dfy`: the row filter behind every `DELETE` and its lemmas, plus the first-match search behind `$wpdb->get_row`, which returns the first row of an unordered result (the model takes table order).
- `lock_store.dfy`: rows, the table invariants, the renewal lookup, the `UPDATE ... WHERE id`.
- `reservation.dfy`: the plugin's operations (acquire/renew, blocking check, sweep, releases, admin release, add-to-cart gates, the checkout-page loop, the checkout validation).
- `properties.dfy`: lemmas relating the operations, two walk-throughs, and the invariants of any run of writes.

Two invariants are used throughout:
- `WellFormed`: ids are unique and below `nextId`. This is what the PRIMARY KEY guarantees.
- `NoDuplicateOwnRows`: at most one row per (product, variation, session). The schema has no such constraint. It holds only while requests run one at a time: the acquire path upserts, and `ReachableTablesAreWellFormed` proves the invariant for every table reachable from a fresh install by such a sequence. Two overlapping requests of one session can both miss the renewal lookup and both insert, which breaks it.

## Model

| member | source | states |
|---|---|---|
| `LockStore.FindOwnLock` | octahexa-product-reservation-lock.php:266-276 | the renewal lookup finds a row of the caller's (product, variation, session) key, whatever its expiry, and finds nothing exactly when no such row exists |
| `LockStore.FindOwnLockUnique` | octahexa-product-reservation-lock.php:268-283 | with at most one row per owner key, the lookup finds that very row |
| `Reservation.LockMinutes` | octahexa-product-reservation-lock.php:279 | the lock duration is the saved setting, or 10 minutes when it was never saved |
| `Reservation.PhpEmptyString` | octahexa-product-reservation-lock.php:414 | PHP `empty()` on a session id holds for "" and "0" and for no other string, which decides the guest release here and at line 433 |
| `Reservation.Absint` | octahexa-product-reservation-lock.php:541 | `absint` yields the value or its negation and never a negative number, leaving non-negative ids unchanged |
| `Reservation.LineVariation` | octahexa-product-reservation-lock.php:240 | a cart line without a variation id locks and checks variation 0, otherwise its own variation (also line 913) |
| `Reservation.CatalogueId` | octahexa-product-reservation-lock.php:914 | the checkout validation looks up the variation when the line names a non-zero one, and the product when the variation id is missing or 0 (every simple-product line) |
| `ClockSkew.LockThenCheckAsWritten` | octahexa-product-reservation-lock.php:279-331 | as written, a fresh lock on an empty table blocks another session at the same instant exactly when the site is less than one lock duration ahead of UTC |
| `Reservation.LockProduct` | octahexa-product-reservation-lock.php:259-307 | after acquiring, the owner has a row stamped `now` that expires `duration*60` seconds later, 600 seconds with the default setting. When the owner already had a row, the count and next id are kept and existing rows only change their times. Otherwise exactly one row with the next id is appended |
| `Reservation.IsProductLocked` | octahexa-product-reservation-lock.php:312-331 | true exactly when a row for the same product and variation belongs to another session and expires strictly after `now` |
| `Reservation.LockPreservesWellFormed` | octahexa-product-reservation-lock.php:283-306 | acquiring keeps ids unique and below the next AUTO_INCREMENT value |
| `Reservation.LockPreservesNoDuplicates` | octahexa-product-reservation-lock.php:266-306 | acquiring never gives an owner a second row for the same product and variation |
| `Reservation.RetimeTouchesOnlyOwnRow` | octahexa-product-reservation-lock.php:283-292 | with unique ids, the renewal update changes the found row and no other |
| `Reservation.LockKeepsOtherSessions` | octahexa-product-reservation-lock.php:259-307 | acquiring leaves every other session's rows exactly as they were, in order |
| `Reservation.LockLeavesOtherRows` | octahexa-product-reservation-lock.php:283-306 | acquiring adds or removes no row outside the caller's own (product, variation, session) key |
| `Reservation.LockKeepsFreshRows` | octahexa-product-reservation-lock.php:238-244 | a row already stamped with this pass's times keeps them when the same pass locks another line |
| `Reservation.CleanupExpiredLocks` | octahexa-product-reservation-lock.php:338-347 | the sweep keeps exactly the rows whose expiry is at or after `now` |
| `Reservation.ReleaseLocksForCustomer` | octahexa-product-reservation-lock.php:421-441 | a positive user id deletes exactly that user's rows, whatever their session. Otherwise a session that is not PHP-empty deletes exactly that session's rows. Otherwise nothing changes |
| `Reservation.OrderReleaseOwner` | octahexa-product-reservation-lock.php:391-416 | a release happens only for a loaded order entering processing, completed, failed, cancelled or refunded. A registered customer is released by user id. A guest is released by the session the order-meta read at line 410 returns, and only when it is not empty |
| `Reservation.ReleaseOnOrderStatusChange` | octahexa-product-reservation-lock.php:391-441 | other statuses and missing orders change nothing. A registered customer's rows are all deleted. A guest's rows are deleted by stored session, or nothing is deleted when there is none. A negative customer id deletes nothing |
| `Reservation.AdminReleaseProductLock` | octahexa-product-reservation-lock.php:529-554 | a bad nonce, a missing capability, and a product id whose absolute value is 0 are refused in that order. Otherwise exactly the rows of that product are deleted, whatever their variation or owner |
| `Reservation.ValidateProductNotLocked` | octahexa-product-reservation-lock.php:358-370 | the simple-product gate refuses exactly when the product (variation 0) is held by another session, and otherwise passes `valid` through |
| `Reservation.ValidateVariationNotLocked` | octahexa-product-reservation-lock.php:375-385 | the variation gate passes `valid` through when no variation is named, and otherwise refuses exactly when that variation is held by another session |
| `Reservation.LockCartStepKeepsLines` | octahexa-product-reservation-lock.php:238-244 | locking cart line `k` keeps lines `0..k-1` locked and locks line `k` |
| `Reservation.LockCartStep` | octahexa-product-reservation-lock.php:238-244 | one pass of the cart loop keeps the key invariants and the other sessions' rows |
| `Reservation.LockCartOnCheckout` | octahexa-product-reservation-lock.php:225-244 | off the checkout page or with an empty cart nothing changes. Otherwise every cart line is locked for the owner with this visit's expiry, a line without a variation locking variation 0. Other sessions' rows are untouched, and so is every row of the owner outside the cart lines' keys, such as a lock on an item since removed from the cart. The invariants are kept, and at most one row per line is added |
| `Reservation.LockedCartLines` | octahexa-product-reservation-lock.php:896-925 | the checkout validation reports exactly those cart lines, still in the catalogue, that another session holds |
| `ReservationProperties.RenewalInPlace` | octahexa-product-reservation-lock.php:266-292 | renewal rewrites only the times of the owner's existing row, keeping its id, user id and position. Every other row and the row count stay the same |
| `ReservationProperties.LockedDependsOnlyOnOthers` | octahexa-product-reservation-lock.php:319-326 | the blocking check reads only other sessions' rows |
| `ReservationProperties.OwnLockNeverBlocksSelf` | octahexa-product-reservation-lock.php:312-331 | a session's own lock never changes what the blocking check tells that session, for any item and any time |
| `ReservationProperties.LockBlocksOthersUntilExpiry` | octahexa-product-reservation-lock.php:279-331 | once a session locks an item, every other session is blocked on it at every time before the expiry |
| `ReservationProperties.LockAffectsOnlyItsItem` | octahexa-product-reservation-lock.php:266-331 | locking one (product, variation) never changes the blocking answer for another pair. In particular, locking a variation does not block its parent product |
| `ReservationProperties.SingleLockBlocksExactlyBeforeExpiry` | octahexa-product-reservation-lock.php:279-331 | a lock on an empty table blocks another session exactly while the query time is before its expiry, although the row stays stored |
| `ReservationProperties.SweepExact` | octahexa-product-reservation-lock.php:343-346 | the sweep removes every copy of each row expiring before `now` and keeps every copy of the others |
| `ReservationProperties.SweepIdempotent` | octahexa-product-reservation-lock.php:338-347 | a second sweep at the same time changes nothing |
| `ReservationProperties.SweepsCompose` | octahexa-product-reservation-lock.php:338-347 | an earlier sweep followed by a later one equals the later one alone |
| `ReservationProperties.SweepPreservesInvariants` | octahexa-product-reservation-lock.php:338-347 | the sweep keeps unique ids and at most one row per owner key |
| `ReservationProperties.SweepPreservesBlocking` | octahexa-product-reservation-lock.php:319-347 | a sweep never changes a blocking answer at any time not before the sweep |
| `ReservationProperties.BoundaryRowNeitherBlocksNorIsSwept` | octahexa-product-reservation-lock.php:324-345 | a row expiring exactly at `now` is neither blocking nor deleted at `now` |
| `ReservationProperties.ReleaseExact` | octahexa-product-reservation-lock.php:421-441 | owner release removes every copy of the owner's rows and keeps every copy of the rest |
| `ReservationProperties.ReleasePreservesInvariants` | octahexa-product-reservation-lock.php:421-441 | owner release keeps unique ids and at most one row per owner key |
| `ReservationProperties.ReleaseByUserKeepsGuestRows` | octahexa-product-reservation-lock.php:424-430 | releasing by user id keeps rows the same person wrote as a guest (user id 0) |
| `ReservationProperties.OrderReleaseUnblocks` | octahexa-product-reservation-lock.php:391-441 | a registered customer's released order frees every item that only that customer's rows were blocking |
| `ReservationProperties.GuestOrderReleaseUnblocks` | octahexa-product-reservation-lock.php:405-441 | a guest order whose order-meta read (line 410) returns a non-empty session frees every item that only that session's rows were blocking |
| `ReservationProperties.GuestOrderWithoutSessionKeepsLocks` | octahexa-product-reservation-lock.php:405-441 | a guest order whose order-meta read returns '' leaves the lock table as it was, so everything it blocked stays blocked |
| `ReservationProperties.AdminReleaseUnblocks` | octahexa-product-reservation-lock.php:541-554 | after an accepted administrator release, no variation of the product blocks any session |
| `ReservationProperties.AddToCartValidation` | octahexa-product-reservation-lock.php:356-385 | the two add-to-cart filters, chained in registration order, never turn a refusal into an acceptance |
| `ReservationProperties.AddToCartChain` | octahexa-product-reservation-lock.php:356-385 | an add passes both filters exactly when it was valid, the parent product is not held by another session, and the named variation, if any, is not held either |
| `ReservationProperties.GuardedLockPreservesExclusion` | octahexa-product-reservation-lock.php:259-331 | a caller that acquires only after the blocking check said no would keep "at most one session holds an item"; the plugin's one caller (line 243) does not check first |
| `ReservationProperties.UnguardedLockBreaksExclusion` | octahexa-product-reservation-lock.php:259-307 | the acquire itself is unconditional: a second session can lock an item another session holds, and exclusion is lost |
| `ReservationProperties.LockedCartLinesIgnoreOwnRows` | octahexa-product-reservation-lock.php:896-925 | the checkout validation depends only on other sessions' rows, so the checkout-page loop's own locks never change its report |
| `ReservationProperties.ContendedProductWalkThrough` | octahexa-product-reservation-lock.php:259-370 | session A locks product 42 for 10 minutes at time 0. Session B is refused at 1 minute and admitted at 11 minutes, while A's row is still stored |
| `ReservationProperties.LapsedLockTakenOverThenSwept` | octahexa-product-reservation-lock.php:259-347 | B then locks product 42 itself, and a sweep at 11 minutes deletes A's lapsed row and keeps B's |
| `ReservationProperties.CompletedOrderWalkThrough` | octahexa-product-reservation-lock.php:391-441 | completing user 5's order frees the item at once for every other session, long before expiry |
| `ReservationProperties.ApplyPreservesInvariants` | octahexa-product-reservation-lock.php:259-554 | every write the plugin issues keeps unique ids and at most one row per owner key |
| `ReservationProperties.RunPreservesInvariants` | octahexa-product-reservation-lock.php:259-554 | any sequence of those writes keeps both invariants |
| `ReservationProperties.ReachableTablesAreWellFormed` | octahexa-product-reservation-lock.php:49-61 | the schema enforces only the id key, yet every table reachable from a fresh install has at most one row per (product, variation, session) |
| `ClockSkew.AheadOfUtcLockNeverBlocks` | octahexa-product-reservation-lock.php:279-331 | as written, on a site at least one lock duration ahead of UTC, a lock just taken blocks no other session, because its UTC-based expiry is compared with local time |
| `ClockSkew.NearUtcLockBlocks` | octahexa-product-reservation-lock.php:279-331 | as written, on a site less than one lock duration ahead of UTC, or behind it, a fresh lock does block other sessions at once |
| `ClockSkew.LockThenCheckLaterAsWritten` | octahexa-product-reservation-lock.php:279-331 | as written, a fresh lock on an empty table blocks another session a given number of seconds later exactly when that delay plus the site's offset from UTC is under one lock duration |
| `ClockSkew.BehindUtcLockOutlastsDuration` | octahexa-product-reservation-lock.php:279-331 | as written, on a site behind UTC a lock still blocks other sessions one full duration after it was taken, on any table |
| `ClockSkew.UtcMinusFiveSiteExample` | octahexa-product-reservation-lock.php:279-331 | at UTC-5 with the default 10 minutes, A's lock on product 42 blocks B for 5 hours 10 minutes and not a second longer |
| `ClockSkew.UtcPlusOneSiteExample` | octahexa-product-reservation-lock.php:279-331 | at UTC+1 with the default 10 minutes, A's fresh lock on product 42 does not stop B |

## Behaviour of the code that is easy to miss

- The acquire (`oh_lock_product`) does not check other sessions' rows. It always upserts the caller's row. Its only caller, the checkout-page loop (line 243), never consults the blocking check. The add-to-cart filters (lines 358-385) check but never acquire: a refusal only keeps an item that is already held out of new carts. Two carts that both hold an item are caught only after locking, by the checkout validation (lines 911-925, `Reservation.LockedCartLines`). `UnguardedLockBreaksExclusion` shows the acquire as written breaking exclusion. `GuardedLockPreservesExclusion` shows that a caller checking first, which the plugin does not have, would keep it.
- The renewal lookup has no expiry condition. A lapsed row of the owner is renewed in place, not re-inserted.
- The sweep deletes `expires_at < now` and the blocking check counts `expires_at > now`. A row expiring exactly at `now` is neither deleted nor blocking.
- An empty session id is accepted by the acquire, as the code accepts it. There is no input-rejection path.

## Left out

- Hook registration, notices, the settings page, the admin meta box and product-list column, the AJAX and REST handlers, nocache headers, WPML strings, block HTML and the generated JavaScript are display and framework glue. The AJAX handler and single-product notice only call the blocking check that is modelled.
- The cart-emptied hook (lines 447-453) calls the owner release with the current user and session. In `ReservationProperties.Op` it is the `ReleaseOwner` write.
- The meta-box listing query (ordering by lock time) only displays rows.
- Storing the session id on the order at checkout (lines 865-870) is outside the model. `Order.sessionMeta` is whatever `get_post_meta` returns at line 410, not necessarily what line 868 wrote.
- Reservation.ReleaseOnOrderStatusChange: the model does not promise that a guest order is released by the session stored at checkout. Line 868 writes through the order object (`update_meta_data`), while line 410 reads with `get_post_meta`. The two agree only when orders are stored as posts. Under WooCommerce's custom order tables, which the plugin declares no compatibility with, the read returns '' and a guest order releases nothing (`Order(0, "")` leaves the table unchanged).
- Schema creation, database-version upgrades and uninstall are migration plumbing.
- Overlapping execution is not modelled: every operation is one atomic step. A check at add to cart followed later by another session's lock is an ordinary sequence of such steps, and `ReservationProperties.UnguardedLockBreaksExclusion` shows where it leads. What cannot be expressed is two requests interleaving inside one step, for instance both passing the renewal lookup (line 268) before either inserts (line 295).
- Database failures are not modelled: every `$wpdb` call succeeds in the model. The source checks no result. A failed lookup at line 319 makes the blocking check answer "not locked" (line 331), so it fails open. A failed renewal lookup at line 268 falls through to the INSERT at line 295 and can create a second row for the same owner and item. Failed writes at lines 283, 295, 428 and 550 are silent.
- Reservation.LockProduct: with no WooCommerce session, line 264 calls `get_customer_id()` on a null session and the request dies. The model instead takes the session id as a parameter and will lock under "". The blocking check (line 316) and the cart-emptied hook (line 450) do guard against a missing session.
- Reservation.LockCartOnCheckout: one `now` serves the whole loop, while the source reads the clock again for each line (lines 280, 286 and 302). Within one request the readings differ by at most the loop's running time.
- Clock sources are modelled only as far as the findings below need. Everywhere else the model uses one clock, the corrected behaviour.
- MySQL string comparison is modelled as exact. The database collation may compare session ids case-insensitively.
- Column widths (a `mediumint` id, `bigint` ids) and datetime granularity are not modelled: integers are unbounded.
- A query argument that is not numeric (which `absint` turns into 0) is represented by passing `Some(0)` in `AdminRequest.productParam`.
- The checkout loop's reservation notice and the `show_warning` setting only display a message.

## Findings

| source | as written | input that shows it | evidently intended | confidence | as-written member | corrected member |
|---|---|---|---|---|---|---|
| octahexa-product-reservation-lock.php:280 | The expiry is `date()` of `time()` plus the duration, which is UTC in WordPress. The blocking check (line 328) and the sweep (line 346) compare it with `current_time('mysql')`, which is the site's local time | a site at UTC+1 with the default 10 minutes. Session A locks product 42 at UTC 0, so the stored expiry is 600. Session B checks at local 3600 and is not blocked | a lock blocks other sessions for the configured duration whatever the site's timezone | medium; not executed | `ClockSkew.AheadOfUtcLockNeverBlocks` | `ReservationProperties.LockBlocksOthersUntilExpiry` |
| octahexa-product-reservation-lock.php:328 | The blocking check compares the UTC-based expiry written at line 280 with the site's local time, so on a site behind UTC the lock lasts the duration plus the offset | a site at UTC-5 with the default 10 minutes. Session A locks product 42 at UTC 0, so the stored expiry is 600. One hour later session B checks at local -14400 and is still blocked, until 5 hours 10 minutes have passed | a lock blocks other sessions for the configured duration and no longer | medium; not executed | `ClockSkew.BehindUtcLockOutlastsDuration` | `ReservationProperties.SingleLockBlocksExactlyBeforeExpiry` |

=== FILE: clock_skew.dfy ===
/** The two clocks of the acquire path. The expiry is written from `time()`,
    which WordPress keeps in UTC, while `lock_time` and every comparison
    (blocking check, sweep) read `current_time('mysql')`, the site's local
    wall-clock time. The rest of the model uses one clock; this module
    shows what the mix does on a site whose local time is `gmtOffset`
    seconds ahead of UTC (behind it when negative). */
module ClockSkew {
  import opened Results
  import opened LockStore
  import opened Reservation
  import opened ReservationProperties

  /** The site's local time, as `current_time('mysql')` reads it. */
  function SiteTime(utcNow: int, gmtOffset: int): int {
    utcNow + gmtOffset
  }

  /** As written: session `sessionId` locks the item at UTC time `utcNow`,
      and session `otherSession` immediately asks whether it is held. The
      stored expiry is UTC-based; the comparison is made at local time.
      (The lock's `lock_time` column, which no decision reads, is stamped
      with the UTC instant here.) */
  function LockThenCheckAsWritten(t: LockTable, productId: int, variationId: int, userId: int,
                                  sessionId: string, configured: Option<nat>,
                                  utcNow: int, gmtOffset: int, otherSession: string): (blocked: bool)
    ensures t == EmptyTable ==>
      (blocked <==> otherSession != sessionId && gmtOffset < LockMinutes(configured) * 60)
  {
    SingleLockBlocksExactlyBeforeExpiry(productId, variationId, userId, sessionId, configured, utcNow,
                                        otherSession, SiteTime(utcNow, gmtOffset));
    IsProductLocked(LockProduct(t, productId, variationId, userId, sessionId, configured, utcNow),
                    productId, variationId, otherSession, SiteTime(utcNow, gmtOffset))
  }

  /** On a site at least one lock duration ahead of UTC, a lock just taken
      on an empty table blocks nobody: it is born expired. */
  lemma AheadOfUtcLockNeverBlocks(productId: int, variationId: int, userId: int, sessionId: string,
                                  configured: Option<nat>, utcNow: int, gmtOffset: int, otherSession: string)
    requires gmtOffset >= LockMinutes(configured) * 60
    ensures !LockThenCheckAsWritten(EmptyTable, productId, variationId, userId, sessionId, configured,
                                    utcNow, gmtOffset, otherSession)
  {
    SingleLockBlocksExactlyBeforeExpiry(productId, variationId, userId, sessionId, configured, utcNow,
                                        otherSession, SiteTime(utcNow, gmtOffset));
  }

  /** On a site less than one lock duration ahead of UTC (or behind it) the
      lock does block other sessions at once. */
  lemma NearUtcLockBlocks(t: LockTable, productId: int, variationId: int, userId: int, sessionId: string,
                          configured: Option<nat>, utcNow: int, gmtOffset: int, otherSession: string)
    requires otherSession != sessionId && gmtOffset < LockMinutes(configured) * 60
    ensures LockThenCheckAsWritten(t, productId, variationId, userId, sessionId, configured,
                                   utcNow, gmtOffset, otherSession)
  {
    LockBlocksOthersUntilExpiry(t, productId, variationId, userId, sessionId, configured, utcNow,
                                otherSession, SiteTime(utcNow, gmtOffset));
  }

  /** As written, the same lock asked about `elapsed` seconds after it was
      taken. Measured on the site's clock, a fresh lock blocks other
      sessions for the lock duration minus the offset: for less than the
      duration ahead of UTC, for longer behind it. */
  function LockThenCheckLaterAsWritten(t: LockTable, productId: int, variationId: int, userId: int,
                                       sessionId: string, configured: Option<nat>,
                                       utcNow: int, gmtOffset: int, elapsed: int,
                                       otherSession: string): (blocked: bool)
    ensures t == EmptyTable ==>
      (blocked <==> otherSession != sessionId && elapsed + gmtOffset < LockMinutes(configured) * 60)
  {
    SingleLockBlocksExactlyBeforeExpiry(productId, variationId, userId, sessionId, configured, utcNow,
                                        otherSession, SiteTime(utcNow + elapsed, gmtOffset));
    IsProductLocked(LockProduct(t, productId, variationId, userId, sessionId, configured, utcNow),
                    productId, variationId, otherSession, SiteTime(utcNow + elapsed, gmtOffset))
  }

  /** On a site behind UTC the lock outlives its duration: one full duration
      after it was taken it still blocks other sessions, on any table. */
  lemma BehindUtcLockOutlastsDuration(t: LockTable, productId: int, variationId: int, userId: int,
                                      sessionId: string, configured: Option<nat>, utcNow: int,
                                      gmtOffset: int, otherSession: string)
    requires otherSession != sessionId && gmtOffset < 0
    ensures LockThenCheckLaterAsWritten(t, productId, variationId, userId, sessionId, configured,
                                        utcNow, gmtOffset, LockMinutes(configured) * 60, otherSession)
  {
    LockBlocksOthersUntilExpiry(t, productId, variationId, userId, sessionId, configured, utcNow,
                                otherSession, SiteTime(utcNow + LockMinutes(configured) * 60, gmtOffset));
  }

  /** Concretely: at UTC-5 with the default 10 minutes, session "A"'s lock on
      product 42 stops session "B" for 5 hours 10 minutes, not 10 minutes. */
  lemma UtcMinusFiveSiteExample()
    ensures LockThenCheckLaterAsWritten(EmptyTable, 42, 0, 0, "A", None, 0, -18000, 18599, "B")
    ensures !LockThenCheckLaterAsWritten(EmptyTable, 42, 0, 0, "A", None, 0, -18000, 18600, "B")
  {
    BehindUtcLockOutlastsDuration(EmptyTable, 42, 0, 0, "A", None, 0, -18000, "B");
  }

  /** Concretely: at UTC+1 with the default 10 minutes, session "A"'s lock on
      product 42 does not stop session "B" even at the instant it is taken. */
  lemma UtcPlusOneSiteExample()
    ensures !LockThenCheckAsWritten(EmptyTable, 42, 0, 0, "A", None, 0, 3600, "B")
  {
    AheadOfUtcLockNeverBlocks(42, 0, 0, "A", None, 0, 3600, "B");
  }
}

=== FILE: lock_store.dfy ===
/** The reservation-lock table: its rows, the invariants the schema keeps,
    and the row-level queries and writes the plugin issues against it.
    Time is one abstract clock counted in seconds. */
module LockStore {
  import opened Results
  import opened Seqs

  /** One row of the lock table. `id` is the AUTO_INCREMENT primary key;
      `variationId` 0 means the product itself; `userId` 0 means a guest. */
  datatype Row = Row(
    id: nat,
    productId: int,
    variationId: int,
    userId: int,
    sessionId: string,
    lockTime: int,
    expiresAt: int)

  /** The table as an ordered sequence of rows, with the next AUTO_INCREMENT value. */
  datatype LockTable = LockTable(rows: seq<Row>, nextId: nat)

  /** A freshly created table: no rows, AUTO_INCREMENT starting at 1. */
  const EmptyTable: LockTable := LockTable([], 1)

  /** The row belongs to session `sessionId` and reserves (productId, variationId). */
  predicate OwnKey(r: Row, productId: int, variationId: int, sessionId: string) {
    r.productId == productId && r.variationId == variationId && r.sessionId == sessionId
  }

  predicate DistinctIds(a: Row, b: Row) {
    a.id != b.id
  }

  predicate DistinctOwnKeys(a: Row, b: Row) {
    !OwnKey(b, a.productId, a.variationId, a.sessionId)
  }

  /** What the PRIMARY KEY guarantees: ids are unique and below the next AUTO_INCREMENT value. */
  ghost predicate WellFormed(t: LockTable) {
    && (forall i, j :: 0 <= i < j < |t.rows| ==> t.rows[i].id != t.rows[j].id)
    && (forall i :: 0 <= i < |t.rows| ==> t.rows[i].id < t.nextId)
  }

  /** No two rows share (product, variation, session): the upsert never duplicates an owner's row. */
  ghost predicate NoDuplicateOwnRows(t: LockTable) {
    forall i, j :: 0 <= i < j < |t.rows| ==> !OwnKey(t.rows[j], t.rows[i].productId, t.rows[i].variationId, t.rows[i].sessionId)
  }

  /** Some row of `t` belongs to this owner for this product and variation, expired or not. */
  predicate HasOwnRow(t: LockTable, productId: int, variationId: int, sessionId: string) {
    exists k :: 0 <= k < |t.rows| && OwnKey(t.rows[k], productId, variationId, sessionId)
  }

  /** The owner has a row for (product, variation) stamped with exactly these times. */
  predicate HasFreshOwnRow(t: LockTable, productId: int, variationId: int, sessionId: string,
                           lockTime: int, expiresAt: int) {
    exists k :: 0 <= k < |t.rows| && FreshOwnRow(t.rows[k], productId, variationId, sessionId, lockTime, expiresAt)
  }

  /** The row belongs to the owner's key and carries exactly these times. */
  predicate FreshOwnRow(r: Row, productId: int, variationId: int, sessionId: string,
                        lockTime: int, expiresAt: int) {
    OwnKey(r, productId, variationId, sessionId) && r.lockTime == lockTime && r.expiresAt == expiresAt
  }

  /** A row that holds (productId, variationId) against session `sessionId` at time `now`:
      another session's row whose expiry lies strictly after `now`. */
  predicate Blocks(r: Row, productId: int, variationId: int, sessionId: string, now: int) {
    && r.productId == productId
    && r.variationId == variationId
    && r.sessionId != sessionId
    && r.expiresAt > now
  }

  /** The rows of every session other than `sessionId`, in table order. */
  function OtherSessionRows(t: LockTable, sessionId: string): (others: seq<Row>)
    ensures forall r :: r in others <==> r in t.rows && r.sessionId != sessionId
  {
    Filter(t.rows, (r: Row) => r.sessionId != sessionId)
  }

  /** The renewal lookup: the first row matching (product, variation, session),
      with no condition on its expiry. */
  function FindOwnLock(rows: seq<Row>, productId: int, variationId: int, sessionId: string): (found: Option<nat>)
    ensures found.Some? ==> found.value < |rows| && OwnKey(rows[found.value], productId, variationId, sessionId)
    ensures found.None? <==> forall k :: 0 <= k < |rows| ==> !OwnKey(rows[k], productId, variationId, sessionId)
  {
    FirstIndex(rows, r => OwnKey(r, productId, variationId, sessionId))
  }

  /** Under the no-duplicate invariant the renewal lookup finds the one row of the owner. */
  lemma FindOwnLockUnique(t: LockTable, productId: int, variationId: int, sessionId: string, i: nat)
    requires NoDuplicateOwnRows(t)
    requires i < |t.rows| && OwnKey(t.rows[i], productId, variationId, sessionId)
    ensures FindOwnLock(t.rows, productId, variationId, sessionId) == Some(i)
  {
    var found := FindOwnLock(t.rows, productId, variationId, sessionId);
    if found.value < i {
      assert false;
    }
  }

  /** A DELETE keeps the primary key intact: the surviving rows are rows of the table. */
  lemma FilterKeepsWellFormed(t: LockTable, keep: Row -> bool)
    requires WellFormed(t)
    ensures WellFormed(t.(rows := Filter(t.rows, keep)))
  {
    assert Pairwise(t.rows, DistinctIds);
    FilterPairwise(t.rows, keep, DistinctIds);
    var rows' := Filter(t.rows, keep);
    forall i | 0 <= i < |rows'| ensures rows'[i].id < t.nextId {
      assert rows'[i] in t.rows;
    }
  }

  /** A DELETE never creates a duplicate owner row. */
  lemma FilterKeepsNoDuplicates(t: LockTable, keep: Row -> bool)
    requires NoDuplicateOwnRows(t)
    ensures NoDuplicateOwnRows(t.(rows := Filter(t.rows, keep)))
  {
    assert Pairwise(t.rows, DistinctOwnKeys);
    FilterPairwise(t.rows, keep, DistinctOwnKeys);
  }

  /** `UPDATE ... SET lock_time, expires_at WHERE id = id`: re-times every row carrying `id`. */
  function Retime(rows: seq<Row>, id: nat, lockTime: int, expiresAt: int): (r: seq<Row>)
    ensures |r| == |rows|
    ensures forall i :: 0 <= i < |rows| ==>
      r[i] == if rows[i].id == id then rows[i].(lockTime := lockTime, expiresAt := expiresAt) else rows[i]
  {
    seq(|rows|, i requires 0 <= i < |rows| =>
      if rows[i].id == id then rows[i].(lockTime := lockTime, expiresAt := expiresAt) else rows[i])
  }

}

=== FILE: properties.dfy ===
/** Properties of the reservation policy that relate several operations:
    renewal in place, self-exclusion, expiry against presence, the sweep,
    the release paths, the add-to-cart chain, and what exclusion the
    plugin does and does not guarantee. */
module ReservationProperties {
  import opened Results
  import opened Seqs
  import opened LockStore
  import opened Reservation

  // ---------------------------------------------------------------------
  // Acquire / renew
  // ---------------------------------------------------------------------

  /** Renewal is an update in place: the owner's existing row (expired or not)
      gets the new times and keeps its id, owner and user id; no other row
      changes and no row is added. */
  lemma RenewalInPlace(t: LockTable, productId: int, variationId: int, userId: int,
                       sessionId: string, configured: Option<nat>, now: int, i: nat)
    requires WellFormed(t) && NoDuplicateOwnRows(t)
    requires i < |t.rows| && OwnKey(t.rows[i], productId, variationId, sessionId)
    ensures var t' := LockProduct(t, productId, variationId, userId, sessionId, configured, now);
      && |t'.rows| == |t.rows|
      && t'.nextId == t.nextId
      && t'.rows[i] == t.rows[i].(lockTime := now, expiresAt := now + LockMinutes(configured) * 60)
      && forall k :: 0 <= k < |t.rows| && k != i ==> t'.rows[k] == t.rows[k]
  {
    var expiresAt := now + LockMinutes(configured) * 60;
    FindOwnLockUnique(t, productId, variationId, sessionId, i);
    RetimeTouchesOnlyOwnRow(t, productId, variationId, sessionId, now, expiresAt, i);
  }

  /** The blocking check looks only at other sessions' rows. */
  lemma LockedDependsOnlyOnOthers(t: LockTable, productId: int, variationId: int, sessionId: string, now: int)
    ensures IsProductLocked(t, productId, variationId, sessionId, now) <==>
      exists r :: r in OtherSessionRows(t, sessionId) && Blocks(r, productId, variationId, sessionId, now)
  {
  }

  /** Self-exclusion: a session's own lock never changes what the blocking
      check reports to that same session, for any item and any time. */
  lemma OwnLockNeverBlocksSelf(t: LockTable, productId: int, variationId: int, userId: int,
                               sessionId: string, configured: Option<nat>, now: int,
                               queryProduct: int, queryVariation: int, queryTime: int)
    requires WellFormed(t)
    ensures IsProductLocked(LockProduct(t, productId, variationId, userId, sessionId, configured, now),
                            queryProduct, queryVariation, sessionId, queryTime)
         == IsProductLocked(t, queryProduct, queryVariation, sessionId, queryTime)
  {
    var t' := LockProduct(t, productId, variationId, userId, sessionId, configured, now);
    LockKeepsOtherSessions(t, productId, variationId, userId, sessionId, configured, now);
    LockedDependsOnlyOnOthers(t, queryProduct, queryVariation, sessionId, queryTime);
    LockedDependsOnlyOnOthers(t', queryProduct, queryVariation, sessionId, queryTime);
  }

  /** After session `sessionId` locks (product, variation) at `now`, every
      other session is blocked on that item at every time before the expiry. */
  lemma LockBlocksOthersUntilExpiry(t: LockTable, productId: int, variationId: int, userId: int,
                                    sessionId: string, configured: Option<nat>, now: int,
                                    otherSession: string, queryTime: int)
    requires otherSession != sessionId
    requires queryTime < now + LockMinutes(configured) * 60
    ensures IsProductLocked(LockProduct(t, productId, variationId, userId, sessionId, configured, now),
                            productId, variationId, otherSession, queryTime)
  {
    var expiresAt := now + LockMinutes(configured) * 60;
    var t' := LockProduct(t, productId, variationId, userId, sessionId, configured, now);
    var k :| 0 <= k < |t'.rows| && FreshOwnRow(t'.rows[k], productId, variationId, sessionId, now, expiresAt);
    assert Blocks(t'.rows[k], productId, variationId, otherSession, queryTime);
  }

  /** Locking a variation never blocks the parent product (variation 0), nor
      any other item: only the locked (product, variation) pair is affected. */
  lemma LockAffectsOnlyItsItem(t: LockTable, productId: int, variationId: int, userId: int,
                               sessionId: string, configured: Option<nat>, now: int,
                               queryProduct: int, queryVariation: int, otherSession: string, queryTime: int)
    requires WellFormed(t)
    requires queryProduct != productId || queryVariation != variationId
    ensures IsProductLocked(LockProduct(t, productId, variationId, userId, sessionId, configured, now),
                            queryProduct, queryVariation, otherSession, queryTime)
         == IsProductLocked(t, queryProduct, queryVariation, otherSession, queryTime)
  {
    var t' := LockProduct(t, productId, variationId, userId, sessionId, configured, now);
    LockLeavesOtherRows(t, productId, variationId, userId, sessionId, configured, now);
    if IsProductLocked(t', queryProduct, queryVariation, otherSession, queryTime) {
      var r :| r in t'.rows && Blocks(r, queryProduct, queryVariation, otherSession, queryTime);
      assert r in t.rows;
    }
    if IsProductLocked(t, queryProduct, queryVariation, otherSession, queryTime) {
      var r :| r in t.rows && Blocks(r, queryProduct, queryVariation, otherSession, queryTime);
      assert r in t'.rows;
    }
  }

  // ---------------------------------------------------------------------
  // Expiry and the sweep
  // ---------------------------------------------------------------------

  /** Expiry beats presence: a lock taken on an empty table at `now` blocks
      another session exactly while the query time is before its expiry,
      although its row stays in the table until a sweep removes it. */
  lemma SingleLockBlocksExactlyBeforeExpiry(productId: int, variationId: int, userId: int,
                                            sessionId: string, configured: Option<nat>, now: int,
                                            otherSession: string, queryTime: int)
    ensures var t := LockProduct(EmptyTable, productId, variationId, userId, sessionId, configured, now);
      && HasOwnRow(t, productId, variationId, sessionId)
      && (IsProductLocked(t, productId, variationId, otherSession, queryTime) <==>
            otherSession != sessionId && queryTime < now + LockMinutes(configured) * 60)
  {
    var expiresAt := now + LockMinutes(configured) * 60;
    var t := LockProduct(EmptyTable, productId, variationId, userId, sessionId, configured, now);
    assert t.rows == [Row(1, productId, variationId, userId, sessionId, now, expiresAt)];
    assert OwnKey(t.rows[0], productId, variationId, sessionId);
  }

  /** The sweep removes exactly the rows whose expiry lies strictly before
      `now`, every copy of them, and keeps every copy of every other row. */
  lemma SweepExact(t: LockTable, now: int, r: Row)
    ensures multiset(CleanupExpiredLocks(t, now).rows)[r] == if r.expiresAt < now then 0 else multiset(t.rows)[r]
  {
    FilterCount(t.rows, (x: Row) => !(x.expiresAt < now), r);
  }

  /** A second sweep at the same time finds nothing more to delete. */
  lemma SweepIdempotent(t: LockTable, now: int)
    ensures CleanupExpiredLocks(CleanupExpiredLocks(t, now), now) == CleanupExpiredLocks(t, now)
  {
    FilterIdempotent(t.rows, (r: Row) => !(r.expiresAt < now));
  }

  /** A sweep followed by a later one is the later one alone. */
  lemma SweepsCompose(t: LockTable, earlier: int, later: int)
    requires earlier <= later
    ensures CleanupExpiredLocks(CleanupExpiredLocks(t, earlier), later) == CleanupExpiredLocks(t, later)
  {
    FilterSubsumed(t.rows, (r: Row) => !(r.expiresAt < earlier), (r: Row) => !(r.expiresAt < later));
  }

  /** The sweep keeps the table's invariants. */
  lemma SweepPreservesInvariants(t: LockTable, now: int)
    ensures WellFormed(t) ==> WellFormed(CleanupExpiredLocks(t, now))
    ensures NoDuplicateOwnRows(t) ==> NoDuplicateOwnRows(CleanupExpiredLocks(t, now))
  {
    if WellFormed(t) {
      FilterKeepsWellFormed(t, (r: Row) => !(r.expiresAt < now));
    }
    if NoDuplicateOwnRows(t) {
      FilterKeepsNoDuplicates(t, (r: Row) => !(r.expiresAt < now));
    }
  }

  /** Sweeping never changes a blocking answer for any time not before the
      sweep: the rows it deletes have already stopped blocking. */
  lemma SweepPreservesBlocking(t: LockTable, sweepTime: int, productId: int, variationId: int,
                               sessionId: string, now: int)
    requires sweepTime <= now
    ensures IsProductLocked(CleanupExpiredLocks(t, sweepTime), productId, variationId, sessionId, now)
         == IsProductLocked(t, productId, variationId, sessionId, now)
  {
    if IsProductLocked(t, productId, variationId, sessionId, now) {
      var r :| r in t.rows && Blocks(r, productId, variationId, sessionId, now);
      assert r in CleanupExpiredLocks(t, sweepTime).rows;
    }
  }

  /** At the boundary `expires_at == now` a row neither blocks nor is swept:
      the blocking check uses `>` and the sweep uses `<`. */
  lemma BoundaryRowNeitherBlocksNorIsSwept(t: LockTable, r: Row, now: int, sessionId: string)
    requires r in t.rows && r.expiresAt == now
    ensures r in CleanupExpiredLocks(t, now).rows
    ensures !Blocks(r, r.productId, r.variationId, sessionId, now)
  {
  }

  // ---------------------------------------------------------------------
  // Releases
  // ---------------------------------------------------------------------

  /** Owner release removes exactly the owner's rows, every copy of them,
      and keeps every copy of everybody else's. */
  lemma ReleaseExact(t: LockTable, userId: int, sessionId: string, r: Row)
    ensures multiset(ReleaseLocksForCustomer(t, userId, sessionId).rows)[r] ==
      if (userId > 0 && r.userId == userId) || (userId <= 0 && !PhpEmptyString(sessionId) && r.sessionId == sessionId)
      then 0 else multiset(t.rows)[r]
  {
    if userId > 0 {
      FilterCount(t.rows, (x: Row) => x.userId != userId, r);
    } else if !PhpEmptyString(sessionId) {
      FilterCount(t.rows, (x: Row) => x.sessionId != sessionId, r);
    }
  }

  /** Owner release keeps the table's invariants. */
  lemma ReleasePreservesInvariants(t: LockTable, userId: int, sessionId: string)
    ensures WellFormed(t) ==> WellFormed(ReleaseLocksForCustomer(t, userId, sessionId))
    ensures NoDuplicateOwnRows(t) ==> NoDuplicateOwnRows(ReleaseLocksForCustomer(t, userId, sessionId))
  {
    if userId > 0 {
      var keep := (r: Row) => r.userId != userId;
      if WellFormed(t) { FilterKeepsWellFormed(t, keep); }
      if NoDuplicateOwnRows(t) { FilterKeepsNoDuplicates(t, keep); }
    } else if !PhpEmptyString(sessionId) {
      var keep := (r: Row) => r.sessionId != sessionId;
      if WellFormed(t) { FilterKeepsWellFormed(t, keep); }
      if NoDuplicateOwnRows(t) { FilterKeepsNoDuplicates(t, keep); }
    }
  }

  /** Releasing by a positive user id keeps that user's rows written while
      they were a guest (user id 0), even in the same session. */
  lemma ReleaseByUserKeepsGuestRows(t: LockTable, userId: int, sessionId: string, r: Row)
    requires userId > 0
    requires r in t.rows && r.userId == 0
    ensures r in ReleaseLocksForCustomer(t, userId, sessionId).rows
  {
  }

  /** A completed (or otherwise released) order of a registered customer
      unblocks every item whose blocking rows all belonged to that customer. */
  lemma OrderReleaseUnblocks(t: LockTable, customerId: int, newStatus: string,
                             productId: int, variationId: int, sessionId: string, now: int)
    requires customerId > 0 && newStatus in ReleaseStatuses
    requires forall r :: r in t.rows && Blocks(r, productId, variationId, sessionId, now) ==> r.userId == customerId
    ensures !IsProductLocked(ReleaseOnOrderStatusChange(t, Some(Order(customerId, "")), newStatus),
                             productId, variationId, sessionId, now)
  {
  }

  /** A guest order releases by the session its meta read returns. */
  lemma GuestOrderReleaseUnblocks(t: LockTable, sessionMeta: string, newStatus: string,
                                  productId: int, variationId: int, sessionId: string, now: int)
    requires newStatus in ReleaseStatuses && !PhpEmptyString(sessionMeta)
    requires forall r :: r in t.rows && Blocks(r, productId, variationId, sessionId, now) ==> r.sessionId == sessionMeta
    ensures !IsProductLocked(ReleaseOnOrderStatusChange(t, Some(Order(0, sessionMeta)), newStatus),
                             productId, variationId, sessionId, now)
  {
  }

  /** A guest order whose meta read comes back empty (no session saved, or
      the order kept outside the posts table) releases nothing: every item
      it was blocking stays blocked. */
  lemma GuestOrderWithoutSessionKeepsLocks(t: LockTable, newStatus: string,
                                           productId: int, variationId: int, sessionId: string, now: int)
    ensures ReleaseOnOrderStatusChange(t, Some(Order(0, "")), newStatus) == t
    ensures IsProductLocked(ReleaseOnOrderStatusChange(t, Some(Order(0, "")), newStatus),
                            productId, variationId, sessionId, now)
            == IsProductLocked(t, productId, variationId, sessionId, now)
  {
  }

  /** The administrator's release unblocks every variation of the product
      for every session. */
  lemma AdminReleaseUnblocks(t: LockTable, req: AdminRequest, variationId: int, sessionId: string, now: int)
    requires req.nonceValid && req.canManage && req.productParam.GetOr(0) != 0
    ensures !IsProductLocked(AdminReleaseProductLock(t, req).value,
                             Absint(req.productParam.GetOr(0)), variationId, sessionId, now)
  {
  }

  // ---------------------------------------------------------------------
  // Add-to-cart
  // ---------------------------------------------------------------------

  /** The add-to-cart validation chain: the product gate runs first, then
      the variation gate on its answer. */
  function AddToCartValidation(t: LockTable, valid: bool, productId: int, variationId: int,
                               sessionId: string, now: int): (ok: bool)
    ensures ok ==> valid
  {
    ValidateVariationNotLocked(t, ValidateProductNotLocked(t, valid, productId, sessionId, now),
                               productId, variationId, sessionId, now)
  }

  /** An add passes the chain exactly when it was valid, the parent product
      is not held by another session, and the named variation (if any) is
      not held either. A variation add is thus refused while the parent
      product itself is reserved. */
  lemma AddToCartChain(t: LockTable, valid: bool, productId: int, variationId: int, sessionId: string, now: int)
    ensures AddToCartValidation(t, valid, productId, variationId, sessionId, now) <==>
      && valid
      && !IsProductLocked(t, productId, 0, sessionId, now)
      && (variationId == 0 || !IsProductLocked(t, productId, variationId, sessionId, now))
  {
  }

  // ---------------------------------------------------------------------
  // Exclusion
  // ---------------------------------------------------------------------

  /** At `now`, no item is held by two different sessions through unexpired rows. */
  ghost predicate ExclusiveAt(t: LockTable, now: int) {
    forall a, b :: a in t.rows && b in t.rows
      && a.productId == b.productId && a.variationId == b.variationId
      && a.expiresAt > now && b.expiresAt > now
      ==> a.sessionId == b.sessionId
  }

  /** A lock taken only after the blocking check came back false would keep
      exclusion. The plugin has no such caller: the checkout loop acquires
      without checking. */
  lemma GuardedLockPreservesExclusion(t: LockTable, productId: int, variationId: int, userId: int,
                                      sessionId: string, configured: Option<nat>, now: int)
    requires WellFormed(t) && ExclusiveAt(t, now)
    requires !IsProductLocked(t, productId, variationId, sessionId, now)
    ensures ExclusiveAt(LockProduct(t, productId, variationId, userId, sessionId, configured, now), now)
  {
    var t' := LockProduct(t, productId, variationId, userId, sessionId, configured, now);
    LockLeavesOtherRows(t, productId, variationId, userId, sessionId, configured, now);
    forall a, b | a in t'.rows && b in t'.rows
      && a.productId == b.productId && a.variationId == b.variationId
      && a.expiresAt > now && b.expiresAt > now
      ensures a.sessionId == b.sessionId
    {
      if !OwnKey(a, productId, variationId, sessionId) && !OwnKey(b, productId, variationId, sessionId) {
        assert a in t.rows && b in t.rows;
      } else if OwnKey(a, productId, variationId, sessionId) != OwnKey(b, productId, variationId, sessionId) {
        // The row outside the owner's key would block the guarded check.
        assert false;
      }
    }
  }

  /** The acquire itself is unconditional: without the caller's check, a
      second session can lock an item another session holds (here session
      "A"'s lock on product 42, taken at time 0), and exclusion is lost. */
  lemma UnguardedLockBreaksExclusion()
    ensures var t0 := LockTable([Row(1, 42, 0, 0, "A", 0, 600)], 2);
      var t1 := LockProduct(t0, 42, 0, 0, "B", None, 60);
      && ExclusiveAt(t0, 60)
      && IsProductLocked(t0, 42, 0, "B", 60)
      && !ExclusiveAt(t1, 60)
  {
    var a := Row(1, 42, 0, 0, "A", 0, 600);
    var t0 := LockTable([a], 2);
    assert Blocks(t0.rows[0], 42, 0, "B", 60);
    assert !OwnKey(t0.rows[0], 42, 0, "B");
    var t1 := LockProduct(t0, 42, 0, 0, "B", None, 60);
    var b := Row(2, 42, 0, 0, "B", 60, 660);
    assert t1.rows == [a, b];
    assert a in t1.rows && b in t1.rows;
  }

  // ---------------------------------------------------------------------
  // Checkout
  // ---------------------------------------------------------------------

  /** The checkout validation reports the same lines for two tables whose
      other-session rows agree: in particular the checkout-page loop, which
      only touches the current session's rows, never changes its report. */
  lemma LockedCartLinesIgnoreOwnRows(t: LockTable, t2: LockTable, onCheckout: bool, cart: seq<CartLine>,
                                     inCatalogue: int -> bool, sessionId: string, now: int)
    requires OtherSessionRows(t, sessionId) == OtherSessionRows(t2, sessionId)
    ensures LockedCartLines(t, onCheckout, cart, inCatalogue, sessionId, now)
         == LockedCartLines(t2, onCheckout, cart, inCatalogue, sessionId, now)
  {
    if onCheckout {
      forall l: CartLine
        ensures IsProductLocked(t, l.productId, LineVariation(l), sessionId, now)
             == IsProductLocked(t2, l.productId, LineVariation(l), sessionId, now)
      {
        LockedDependsOnlyOnOthers(t, l.productId, LineVariation(l), sessionId, now);
        LockedDependsOnlyOnOthers(t2, l.productId, LineVariation(l), sessionId, now);
      }
      FilterCongruent(cart,
        l => inCatalogue(CatalogueId(l)) && IsProductLocked(t, l.productId, LineVariation(l), sessionId, now),
        l => inCatalogue(CatalogueId(l)) && IsProductLocked(t2, l.productId, LineVariation(l), sessionId, now));
    }
  }

  // ---------------------------------------------------------------------
  // Walk-throughs
  // ---------------------------------------------------------------------

  /** Session "A" reserves product 42 at time 0 with a 10-minute setting.
      One minute later session "B" is refused; at 11 minutes the lock has
      lapsed and "B" passes the gate, although "A"'s row is still stored. */
  lemma ContendedProductWalkThrough()
    ensures var t0 := LockProduct(EmptyTable, 42, 0, 0, "A", Some(10), 0);
      && IsProductLocked(t0, 42, 0, "B", 60)
      && !ValidateProductNotLocked(t0, true, 42, "B", 60)
      && !IsProductLocked(t0, 42, 0, "B", 660)
      && ValidateProductNotLocked(t0, true, 42, "B", 660)
      && t0.rows == [Row(1, 42, 0, 0, "A", 0, 600)]
  {
    var t0 := LockProduct(EmptyTable, 42, 0, 0, "A", Some(10), 0);
    assert t0.rows == [Row(1, 42, 0, 0, "A", 0, 600)];
    assert Blocks(t0.rows[0], 42, 0, "B", 60);
  }

  /** Continuing: at 11 minutes "B" reserves product 42 itself, and a sweep
      then removes "A"'s lapsed row and keeps "B"'s. */
  lemma LapsedLockTakenOverThenSwept()
    ensures var t1 := LockProduct(LockTable([Row(1, 42, 0, 0, "A", 0, 600)], 2), 42, 0, 0, "B", Some(10), 660);
      CleanupExpiredLocks(t1, 660).rows == [Row(2, 42, 0, 0, "B", 660, 1260)]
  {
    var a := Row(1, 42, 0, 0, "A", 0, 600);
    var b := Row(2, 42, 0, 0, "B", 660, 1260);
    var t0 := LockTable([a], 2);
    assert !OwnKey(t0.rows[0], 42, 0, "B");
    var t1 := LockProduct(t0, 42, 0, 0, "B", Some(10), 660);
    assert t1.rows == [a, b];
    var keep := (r: Row) => !(r.expiresAt < 660);
    assert Filter([a, b], keep) == [b] by {
      assert [a, b][1..] == [b];
      assert [b][1..] == [];
    }
  }

  /** User 5 in session "A" reserves variation 3 of product 7; when user 5's
      order completes the item is free for every other session at once, long
      before the lock would have expired. */
  lemma CompletedOrderWalkThrough(otherSession: string)
    requires otherSession != "A"
    ensures var t0 := LockProduct(EmptyTable, 7, 3, 5, "A", None, 0);
      && IsProductLocked(t0, 7, 3, otherSession, 1)
      && !IsProductLocked(ReleaseOnOrderStatusChange(t0, Some(Order(5, "")), "completed"), 7, 3, otherSession, 1)
  {
    var t0 := LockProduct(EmptyTable, 7, 3, 5, "A", None, 0);
    assert t0.rows == [Row(1, 7, 3, 5, "A", 0, 600)];
    assert Blocks(t0.rows[0], 7, 3, otherSession, 1);
  }

  // ---------------------------------------------------------------------
  // Runs of operations
  // ---------------------------------------------------------------------

  /** Every write the plugin issues against the lock table. The cart-emptied
      hook is `ReleaseOwner` with the current owner. */
  datatype Op =
    | Lock(productId: int, variationId: int, userId: int, sessionId: string, configured: Option<nat>, now: int)
    | Sweep(now: int)
    | ReleaseOwner(userId: int, sessionId: string)
    | OrderStatusChange(order: Option<Order>, newStatus: string)
    | AdminRelease(req: AdminRequest)

  /** One write; a refused administrator request leaves the table as it is. */
  function Apply(t: LockTable, op: Op): LockTable {
    match op
    case Lock(p, v, u, s, c, now) => LockProduct(t, p, v, u, s, c, now)
    case Sweep(now) => CleanupExpiredLocks(t, now)
    case ReleaseOwner(u, s) => ReleaseLocksForCustomer(t, u, s)
    case OrderStatusChange(order, status) => ReleaseOnOrderStatusChange(t, order, status)
    case AdminRelease(req) =>
      match AdminReleaseProductLock(t, req)
      case Ok(t') => t'
      case Err(_) => t
  }

  /** The writes of `ops`, in order. */
  function Run(t: LockTable, ops: seq<Op>): LockTable
    decreases |ops|
  {
    if |ops| == 0 then t else Run(Apply(t, ops[0]), ops[1..])
  }

  /** Every single write keeps the primary key and the no-duplicate invariant. */
  lemma ApplyPreservesInvariants(t: LockTable, op: Op)
    requires WellFormed(t) && NoDuplicateOwnRows(t)
    ensures WellFormed(Apply(t, op)) && NoDuplicateOwnRows(Apply(t, op))
  {
    match op
    case Lock(p, v, u, s, c, now) =>
      LockPreservesWellFormed(t, p, v, u, s, c, now);
      LockPreservesNoDuplicates(t, p, v, u, s, c, now);
    case Sweep(now) =>
      SweepPreservesInvariants(t, now);
    case ReleaseOwner(u, s) =>
      ReleasePreservesInvariants(t, u, s);
    case OrderStatusChange(order, status) =>
      match OrderReleaseOwner(order, status) {
        case None =>
        case Some(owner) => ReleasePreservesInvariants(t, owner.userId, owner.sessionId);
      }
    case AdminRelease(req) =>
      if req.nonceValid && req.canManage && Absint(req.productParam.GetOr(0)) != 0 {
        var productId := Absint(req.productParam.GetOr(0));
        FilterKeepsWellFormed(t, (r: Row) => r.productId != productId);
        FilterKeepsNoDuplicates(t, (r: Row) => r.productId != productId);
      }
  }

  /** Any run of writes keeps the primary key and the no-duplicate invariant. */
  lemma {:induction false} RunPreservesInvariants(t: LockTable, ops: seq<Op>)
    requires WellFormed(t) && NoDuplicateOwnRows(t)
    ensures WellFormed(Run(t, ops)) && NoDuplicateOwnRows(Run(t, ops))
    decreases |ops|
  {
    if |ops| > 0 {
      ApplyPreservesInvariants(t, ops[0]);
      RunPreservesInvariants(Apply(t, ops[0]), ops[1..]);
    }
  }

  /** Every table the plugin can reach from a fresh install has unique ids
      and at most one row per (product, variation, session). */
  lemma ReachableTablesAreWellFormed(ops: seq<Op>)
    ensures WellFormed(Run(EmptyTable, ops)) && NoDuplicateOwnRows(Run(EmptyTable, ops))
  {
    RunPreservesInvariants(EmptyTable, ops);
  }
}

=== FILE: reservation.dfy ===
/** The plugin's reservation policy on top of the lock table: acquiring and
    renewing locks, the "locked by someone else" check, the hourly sweep, the
    release paths (owner, order status, administrator), the add-to-cart gates
    and the checkout-page loop that locks every cart line.

    Every ambient lookup of the host (current user, session id, clock,
    settings) is an explicit parameter. Where the host substitutes '' for a
    missing session, the caller passes "". */
module Reservation {
  import opened Results
  import opened Seqs
  import opened LockStore

  /** Lock duration, in minutes, when the setting has never been saved. */
  const DefaultLockMinutes: nat := 10

  /** The configured lock duration in minutes. The setting is saved through
      `absint`, so a stored value is never negative. */
  function LockMinutes(configured: Option<nat>): (minutes: nat)
    ensures configured.None? ==> minutes == 10
    ensures configured.Some? ==> minutes == configured.value
  {
    configured.GetOr(DefaultLockMinutes)
  }

  /** PHP `empty()` applied to a string: true for "" and for "0", and for no
      other string. */
  function PhpEmptyString(s: string): (empty: bool)
    ensures empty ==> |s| <= 1
    ensures |s| == 1 ==> (empty <==> s[0] == '0')
    ensures |s| == 0 ==> empty
  {
    s == "" || s == "0"
  }

  /** PHP `absint`: the absolute value of an integer. */
  function Absint(x: int): (n: nat)
    ensures n == x || n == -x
    ensures x >= 0 ==> n == x
  {
    if x < 0 then -x else x
  }

  // ---------------------------------------------------------------------
  // Acquire / renew and the blocking check
  // ---------------------------------------------------------------------

  /** Acquire or renew the caller's lock on (productId, variationId). If the
      session already has a row for the pair (expired or not), only that row's
      times change; otherwise a row is inserted with the next id. The row
      expires `LockMinutes(configured) * 60` seconds after `now`. Other
      sessions' rows are never consulted: the acquire is unconditional. */
  function LockProduct(t: LockTable, productId: int, variationId: int, userId: int,
                       sessionId: string, configured: Option<nat>, now: int): (t': LockTable)
    ensures HasFreshOwnRow(t', productId, variationId, sessionId, now, now + LockMinutes(configured) * 60)
    ensures configured.None? ==> HasFreshOwnRow(t', productId, variationId, sessionId, now, now + 600)
    ensures HasOwnRow(t, productId, variationId, sessionId) ==>
      |t'.rows| == |t.rows| && t'.nextId == t.nextId
    ensures !HasOwnRow(t, productId, variationId, sessionId) ==>
      && t'.rows == t.rows + [Row(t.nextId, productId, variationId, userId, sessionId,
                                  now, now + LockMinutes(configured) * 60)]
      && t'.nextId == t.nextId + 1
    ensures |t'.rows| <= |t.rows| + 1
    ensures forall k :: 0 <= k < |t.rows| ==>
      t'.rows[k] == t.rows[k] || t'.rows[k] == t.rows[k].(lockTime := now, expiresAt := now + LockMinutes(configured) * 60)
  {
    var expiresAt := now + LockMinutes(configured) * 60;
    match FindOwnLock(t.rows, productId, variationId, sessionId)
    case Some(i) =>
      var rows' := Retime(t.rows, t.rows[i].id, now, expiresAt);
      assert FreshOwnRow(rows'[i], productId, variationId, sessionId, now, expiresAt);
      t.(rows := rows')
    case None =>
      var added := Row(t.nextId, productId, variationId, userId, sessionId, now, expiresAt);
      assert FreshOwnRow((t.rows + [added])[|t.rows|], productId, variationId, sessionId, now, expiresAt);
      LockTable(t.rows + [added], t.nextId + 1)
  }

  /** Is (productId, variationId) held by a session other than `sessionId`?
      Only rows whose expiry lies strictly after `now` count. */
  function IsProductLocked(t: LockTable, productId: int, variationId: int, sessionId: string,
                           now: int): (locked: bool)
    ensures locked <==> exists r :: r in t.rows && Blocks(r, productId, variationId, sessionId, now)
  {
    FirstIndex(t.rows, r => Blocks(r, productId, variationId, sessionId, now)).Some?
  }

  /** Acquiring or renewing keeps the primary key intact: a renewal does not
      touch ids, an insert takes the next AUTO_INCREMENT value. */
  lemma LockPreservesWellFormed(t: LockTable, productId: int, variationId: int, userId: int,
                                sessionId: string, configured: Option<nat>, now: int)
    requires WellFormed(t)
    ensures WellFormed(LockProduct(t, productId, variationId, userId, sessionId, configured, now))
  {
    var t' := LockProduct(t, productId, variationId, userId, sessionId, configured, now);
    match FindOwnLock(t.rows, productId, variationId, sessionId)
    case Some(i) =>
      assert t'.rows == Retime(t.rows, t.rows[i].id, now, now + LockMinutes(configured) * 60);
      forall a, b | 0 <= a < b < |t'.rows| ensures DistinctIds(t'.rows[a], t'.rows[b]) {
        assert DistinctIds(t.rows[a], t.rows[b]);
      }
    case None =>
      forall a, b | 0 <= a < b < |t'.rows| ensures DistinctIds(t'.rows[a], t'.rows[b]) {
        if b == |t.rows| {
        } else {
          assert DistinctIds(t.rows[a], t.rows[b]);
        }
      }
  }

  /** Acquiring or renewing never gives an owner a second row for the same
      product and variation. */
  lemma LockPreservesNoDuplicates(t: LockTable, productId: int, variationId: int, userId: int,
                                  sessionId: string, configured: Option<nat>, now: int)
    requires NoDuplicateOwnRows(t)
    ensures NoDuplicateOwnRows(LockProduct(t, productId, variationId, userId, sessionId, configured, now))
  {
    var t' := LockProduct(t, productId, variationId, userId, sessionId, configured, now);
    match FindOwnLock(t.rows, productId, variationId, sessionId)
    case Some(i) =>
      assert t'.rows == Retime(t.rows, t.rows[i].id, now, now + LockMinutes(configured) * 60);
      forall a, b | 0 <= a < b < |t'.rows| ensures DistinctOwnKeys(t'.rows[a], t'.rows[b]) {
        assert DistinctOwnKeys(t.rows[a], t.rows[b]);
      }
    case None =>
      forall a, b | 0 <= a < b < |t'.rows| ensures DistinctOwnKeys(t'.rows[a], t'.rows[b]) {
        if b == |t.rows| {
        } else {
          assert DistinctOwnKeys(t.rows[a], t.rows[b]);
        }
      }
  }

  /** With unique ids, a renewal changes the owner's row at index `i` and no other. */
  lemma RetimeTouchesOnlyOwnRow(t: LockTable, productId: int, variationId: int, sessionId: string,
                                now: int, expiresAt: int, i: nat)
    requires WellFormed(t)
    requires FindOwnLock(t.rows, productId, variationId, sessionId) == Some(i)
    ensures var rows' := Retime(t.rows, t.rows[i].id, now, expiresAt);
      forall k :: 0 <= k < |t.rows| && k != i ==> rows'[k] == t.rows[k]
  {
    var rows' := Retime(t.rows, t.rows[i].id, now, expiresAt);
    forall k | 0 <= k < |t.rows| && k != i ensures rows'[k] == t.rows[k] {
      if k < i {
        assert DistinctIds(t.rows[k], t.rows[i]);
      } else {
        assert DistinctIds(t.rows[i], t.rows[k]);
      }
    }
  }

  /** Acquiring or renewing leaves every other session's rows as they were, in order. */
  lemma LockKeepsOtherSessions(t: LockTable, productId: int, variationId: int, userId: int,
                               sessionId: string, configured: Option<nat>, now: int)
    requires WellFormed(t)
    ensures OtherSessionRows(LockProduct(t, productId, variationId, userId, sessionId, configured, now), sessionId)
         == OtherSessionRows(t, sessionId)
  {
    var expiresAt := now + LockMinutes(configured) * 60;
    var t' := LockProduct(t, productId, variationId, userId, sessionId, configured, now);
    var keep := (r: Row) => r.sessionId != sessionId;
    match FindOwnLock(t.rows, productId, variationId, sessionId)
    case Some(i) =>
      assert t'.rows == Retime(t.rows, t.rows[i].id, now, expiresAt);
      RetimeTouchesOnlyOwnRow(t, productId, variationId, sessionId, now, expiresAt, i);
      FilterPointwise(t'.rows, t.rows, keep);
    case None =>
      var added := Row(t.nextId, productId, variationId, userId, sessionId, now, expiresAt);
      FilterAppend(t.rows, [added], keep);
      assert Filter([added], keep) == [];
  }

  /** With unique ids, acquiring or renewing changes no row outside the owner's
      own (product, variation, session) key. */
  lemma LockLeavesOtherRows(t: LockTable, productId: int, variationId: int, userId: int,
                            sessionId: string, configured: Option<nat>, now: int)
    requires WellFormed(t)
    ensures var t' := LockProduct(t, productId, variationId, userId, sessionId, configured, now);
      forall r :: !OwnKey(r, productId, variationId, sessionId) ==> (r in t'.rows <==> r in t.rows)
  {
    var expiresAt := now + LockMinutes(configured) * 60;
    var t' := LockProduct(t, productId, variationId, userId, sessionId, configured, now);
    match FindOwnLock(t.rows, productId, variationId, sessionId)
    case Some(i) =>
      assert t'.rows == Retime(t.rows, t.rows[i].id, now, expiresAt);
      RetimeTouchesOnlyOwnRow(t, productId, variationId, sessionId, now, expiresAt, i);
      forall r | !OwnKey(r, productId, variationId, sessionId)
        ensures r in t'.rows <==> r in t.rows
      {
        if r in t'.rows {
          var k :| 0 <= k < |t'.rows| && t'.rows[k] == r;
        }
        if r in t.rows {
          var k :| 0 <= k < |t.rows| && t.rows[k] == r;
        }
      }
    case None =>
  }

  /** A row already stamped (now, expiry) keeps those times through a lock
      taken at the same `now` with the same configuration. */
  lemma LockKeepsFreshRows(t: LockTable, productId: int, variationId: int, userId: int,
                           sessionId: string, configured: Option<nat>, now: int,
                           otherProduct: int, otherVariation: int, otherSession: string)
    requires HasFreshOwnRow(t, otherProduct, otherVariation, otherSession, now, now + LockMinutes(configured) * 60)
    ensures HasFreshOwnRow(LockProduct(t, productId, variationId, userId, sessionId, configured, now),
                           otherProduct, otherVariation, otherSession, now, now + LockMinutes(configured) * 60)
  {
    var expiresAt := now + LockMinutes(configured) * 60;
    var t' := LockProduct(t, productId, variationId, userId, sessionId, configured, now);
    var k :| 0 <= k < |t.rows| && FreshOwnRow(t.rows[k], otherProduct, otherVariation, otherSession, now, expiresAt);
    // A re-stamp writes the times row k already carries.
    assert t.rows[k].(lockTime := now, expiresAt := expiresAt) == t.rows[k];
    assert t'.rows[k] == t.rows[k];
  }

  // ---------------------------------------------------------------------
  // Sweep and releases
  // ---------------------------------------------------------------------

  /** The hourly sweep: delete the rows whose expiry is strictly before `now`. */
  function CleanupExpiredLocks(t: LockTable, now: int): (t': LockTable)
    ensures forall r :: r in t'.rows <==> r in t.rows && r.expiresAt >= now
    ensures |t'.rows| <= |t.rows| && t'.nextId == t.nextId
  {
    t.(rows := Filter(t.rows, (r: Row) => !(r.expiresAt < now)))
  }

  /** Release an owner's locks: by user id when it is positive, otherwise by
      session id when that is not PHP-empty, otherwise nothing. */
  function ReleaseLocksForCustomer(t: LockTable, userId: int, sessionId: string): (t': LockTable)
    ensures userId > 0 ==> forall r :: r in t'.rows <==> r in t.rows && r.userId != userId
    ensures userId <= 0 && !PhpEmptyString(sessionId) ==>
      forall r :: r in t'.rows <==> r in t.rows && r.sessionId != sessionId
    ensures userId <= 0 && PhpEmptyString(sessionId) ==> t' == t
    ensures |t'.rows| <= |t.rows| && t'.nextId == t.nextId
  {
    if userId > 0 then t.(rows := Filter(t.rows, (r: Row) => r.userId != userId))
    else if !PhpEmptyString(sessionId) then t.(rows := Filter(t.rows, (r: Row) => r.sessionId != sessionId))
    else t
  }

  /** The order statuses on entering which an order's locks are released. */
  const ReleaseStatuses: set<string> := {"processing", "completed", "failed", "cancelled", "refunded"}

  /** What the release path reads from an order: its customer id (0 for a
      guest) and what the post-meta read of `_customer_session_id` returns
      ('' when absent). That is the session saved at checkout only when
      orders are stored as posts. */
  datatype Order = Order(customerId: int, sessionMeta: string)

  /** The owner key handed to `ReleaseLocksForCustomer`. */
  datatype Owner = Owner(userId: int, sessionId: string)

  /** Decide whether a status change releases locks, and for which owner.
      `order` is None when the order cannot be loaded. */
  function OrderReleaseOwner(order: Option<Order>, newStatus: string): (owner: Option<Owner>)
    ensures owner.Some? ==> order.Some? && newStatus in ReleaseStatuses
    ensures order.Some? && newStatus in ReleaseStatuses && order.value.customerId != 0 ==>
      owner == Some(Owner(order.value.customerId, ""))
    ensures order.Some? && newStatus in ReleaseStatuses && order.value.customerId == 0 ==>
      && (owner.Some? <==> !PhpEmptyString(order.value.sessionMeta))
      && (owner.Some? ==> owner.value == Owner(0, order.value.sessionMeta))
  {
    if order.None? || newStatus !in ReleaseStatuses then None
    else
      var customerId := order.value.customerId;
      var sessionId := if customerId == 0 then order.value.sessionMeta else "";
      if customerId != 0 || !PhpEmptyString(sessionId) then Some(Owner(customerId, sessionId))
      else None
  }

  /** The order-status hook: release the owner's locks when the decision says so. */
  function ReleaseOnOrderStatusChange(t: LockTable, order: Option<Order>, newStatus: string): (t': LockTable)
    ensures order.None? || newStatus !in ReleaseStatuses ==> t' == t
    ensures order.Some? && newStatus in ReleaseStatuses && order.value.customerId > 0 ==>
      forall r :: r in t'.rows <==> r in t.rows && r.userId != order.value.customerId
    ensures order.Some? && newStatus in ReleaseStatuses && order.value.customerId == 0 ==>
      if PhpEmptyString(order.value.sessionMeta) then t' == t
      else forall r :: r in t'.rows <==> r in t.rows && r.sessionId != order.value.sessionMeta
    ensures order.Some? && order.value.customerId < 0 ==> t' == t
  {
    match OrderReleaseOwner(order, newStatus)
    case None => t
    case Some(owner) => ReleaseLocksForCustomer(t, owner.userId, owner.sessionId)
  }

  /** The administrator's release request: nonce check, capability check and
      the raw `product_id` query argument (None when absent). */
  datatype AdminRequest = AdminRequest(nonceValid: bool, canManage: bool, productParam: Option<int>)

  datatype AdminError = SecurityCheckFailed | NoPermission | NoProductSpecified

  /** Administrator override: after the security and capability checks,
      delete every row of the product, whatever its variation or owner. */
  function AdminReleaseProductLock(t: LockTable, req: AdminRequest): (res: Result<LockTable, AdminError>)
    ensures !req.nonceValid ==> res == Err(SecurityCheckFailed)
    ensures req.nonceValid && !req.canManage ==> res == Err(NoPermission)
    ensures req.nonceValid && req.canManage && req.productParam.GetOr(0) == 0 ==> res == Err(NoProductSpecified)
    ensures res.Ok? <==> req.nonceValid && req.canManage && req.productParam.GetOr(0) != 0
    ensures res.Ok? ==> res.value.nextId == t.nextId
    ensures res.Ok? ==>
      forall r :: r in res.value.rows <==> r in t.rows && r.productId != Absint(req.productParam.GetOr(0))
  {
    if !req.nonceValid then Err(SecurityCheckFailed)
    else if !req.canManage then Err(NoPermission)
    else
      var productId := Absint(req.productParam.GetOr(0));
      if productId == 0 then Err(NoProductSpecified)
      else Ok(t.(rows := Filter(t.rows, (r: Row) => r.productId != productId)))
  }

  // ---------------------------------------------------------------------
  // Add-to-cart gates
  // ---------------------------------------------------------------------

  /** The simple-product gate: rejects when the product itself (variation 0)
      is held by another session, otherwise passes `valid` through. */
  function ValidateProductNotLocked(t: LockTable, valid: bool, productId: int, sessionId: string,
                                    now: int): (ok: bool)
    ensures ok <==> valid && !exists r :: r in t.rows && Blocks(r, productId, 0, sessionId, now)
  {
    if IsProductLocked(t, productId, 0, sessionId, now) then false else valid
  }

  /** The variation gate: checks only when a variation is named (non-zero),
      rejects when that variation is held by another session, otherwise
      passes `valid` through. */
  function ValidateVariationNotLocked(t: LockTable, valid: bool, productId: int, variationId: int,
                                      sessionId: string, now: int): (ok: bool)
    ensures ok <==> (valid &&
      (variationId == 0 || !exists r :: r in t.rows && Blocks(r, productId, variationId, sessionId, now)))
  {
    if variationId != 0 && IsProductLocked(t, productId, variationId, sessionId, now) then false else valid
  }

  // ---------------------------------------------------------------------
  // Checkout page
  // ---------------------------------------------------------------------

  /** A cart line as the checkout loop reads it; a missing variation is None. */
  datatype CartLine = CartLine(productId: int, variationId: Option<int>)

  /** The variation a cart line locks: 0 when the line names none. */
  function LineVariation(line: CartLine): (variationId: int)
    ensures line.variationId.None? ==> variationId == 0
    ensures line.variationId.Some? ==> variationId == line.variationId.value
  {
    line.variationId.GetOr(0)
  }

  /** Every one of the first `k` cart lines has the owner's row stamped (now, expiresAt). */
  ghost predicate CartLinesLocked(t: LockTable, cart: seq<CartLine>, k: int, sessionId: string,
                                  now: int, expiresAt: int) {
    forall j :: 0 <= j < k && j < |cart| ==>
      HasFreshOwnRow(t, cart[j].productId, LineVariation(cart[j]), sessionId, now, expiresAt)
  }

  /** Locking line `k` keeps every earlier cart line locked and adds line `k`. */
  lemma LockCartStepKeepsLines(t: LockTable, cart: seq<CartLine>, k: int, userId: int,
                               sessionId: string, configured: Option<nat>, now: int)
    requires 0 <= k < |cart|
    requires CartLinesLocked(t, cart, k, sessionId, now, now + LockMinutes(configured) * 60)
    ensures CartLinesLocked(LockProduct(t, cart[k].productId, LineVariation(cart[k]), userId, sessionId, configured, now),
                            cart, k + 1, sessionId, now, now + LockMinutes(configured) * 60)
  {
    var expiresAt := now + LockMinutes(configured) * 60;
    var line := cart[k];
    var next := LockProduct(t, line.productId, LineVariation(line), userId, sessionId, configured, now);
    forall j | 0 <= j < k + 1
      ensures HasFreshOwnRow(next, cart[j].productId, LineVariation(cart[j]), sessionId, now, expiresAt)
    {
      if j < k {
        LockKeepsFreshRows(t, line.productId, LineVariation(line), userId, sessionId, configured, now,
                           cart[j].productId, LineVariation(cart[j]), sessionId);
      }
    }
  }

  /** Row `r` lies outside the owner's key of every line of `cart`. */
  predicate OutsideCart(r: Row, cart: seq<CartLine>, sessionId: string) {
    forall k :: 0 <= k < |cart| ==> !OwnKey(r, cart[k].productId, LineVariation(cart[k]), sessionId)
  }

  /** What holds once the checkout loop has locked the first `k` lines of `cart`, starting from `t0`. */
  ghost predicate CartLoopInvariant(t0: LockTable, t: LockTable, cart: seq<CartLine>, k: int,
                                    sessionId: string, now: int, expiresAt: int) {
    && WellFormed(t)
    && CartLinesLocked(t, cart, k, sessionId, now, expiresAt)
    && OtherSessionRows(t, sessionId) == OtherSessionRows(t0, sessionId)
    && (NoDuplicateOwnRows(t0) ==> NoDuplicateOwnRows(t))
    && (forall r :: OutsideCart(r, cart, sessionId) ==> (r in t.rows <==> r in t0.rows))
  }

  /** One iteration of the checkout loop keeps the loop invariant. */
  lemma LockCartStep(t0: LockTable, t: LockTable, cart: seq<CartLine>, k: int, userId: int,
                     sessionId: string, configured: Option<nat>, now: int)
    requires 0 <= k < |cart|
    requires CartLoopInvariant(t0, t, cart, k, sessionId, now, now + LockMinutes(configured) * 60)
    ensures CartLoopInvariant(t0, LockProduct(t, cart[k].productId, LineVariation(cart[k]), userId, sessionId, configured, now),
                              cart, k + 1, sessionId, now, now + LockMinutes(configured) * 60)
  {
    var expiresAt := now + LockMinutes(configured) * 60;
    var line := cart[k];
    var next := LockProduct(t, line.productId, LineVariation(line), userId, sessionId, configured, now);
    assert WellFormed(next) by {
      LockPreservesWellFormed(t, line.productId, LineVariation(line), userId, sessionId, configured, now);
    }
    assert CartLinesLocked(next, cart, k + 1, sessionId, now, expiresAt) by {
      LockCartStepKeepsLines(t, cart, k, userId, sessionId, configured, now);
    }
    assert OtherSessionRows(next, sessionId) == OtherSessionRows(t0, sessionId) by {
      LockKeepsOtherSessions(t, line.productId, LineVariation(line), userId, sessionId, configured, now);
    }
    assert NoDuplicateOwnRows(t0) ==> NoDuplicateOwnRows(next) by {
      if NoDuplicateOwnRows(t0) {
        LockPreservesNoDuplicates(t, line.productId, LineVariation(line), userId, sessionId, configured, now);
      }
    }
    assert forall r :: OutsideCart(r, cart, sessionId) ==> (r in next.rows <==> r in t0.rows) by {
      LockLeavesOtherRows(t, line.productId, LineVariation(line), userId, sessionId, configured, now);
      forall r | OutsideCart(r, cart, sessionId) ensures r in next.rows <==> r in t0.rows {
        assert !OwnKey(r, cart[k].productId, LineVariation(cart[k]), sessionId);
      }
    }
  }

  /** The checkout-page loop: on the checkout page, lock every cart line for
      the current owner; off it, or with an empty cart, change nothing. The
      loop only acquires, so no row outside the cart lines' own keys (the
      owner's locks on items no longer in the cart included) is added or
      removed. */
  method LockCartOnCheckout(t: LockTable, onCheckout: bool, cart: seq<CartLine>, userId: int,
                            sessionId: string, configured: Option<nat>, now: int) returns (t': LockTable)
    requires WellFormed(t)
    ensures WellFormed(t')
    ensures !onCheckout || |cart| == 0 ==> t' == t
    ensures onCheckout ==> forall k :: 0 <= k < |cart| ==>
      HasFreshOwnRow(t', cart[k].productId, LineVariation(cart[k]), sessionId,
                     now, now + LockMinutes(configured) * 60)
    ensures OtherSessionRows(t', sessionId) == OtherSessionRows(t, sessionId)
    ensures NoDuplicateOwnRows(t) ==> NoDuplicateOwnRows(t')
    ensures forall r :: OutsideCart(r, cart, sessionId) ==> (r in t'.rows <==> r in t.rows)
    ensures |t'.rows| <= |t.rows| + |cart|
  {
    if !onCheckout || |cart| == 0 {
      return t;
    }
    t' := t;
    for k := 0 to |cart|
      invariant CartLoopInvariant(t, t', cart, k, sessionId, now, now + LockMinutes(configured) * 60)
      invariant |t'.rows| <= |t.rows| + k
    {
      LockCartStep(t, t', cart, k, userId, sessionId, configured, now);
      t' := LockProduct(t', cart[k].productId, LineVariation(cart[k]), userId, sessionId, configured, now);
    }
  }

  /** The product id the checkout validation looks up in the catalogue:
      the variation when one is named, otherwise the product. A simple
      product's line carries variation id 0 and so looks up the product. */
  function CatalogueId(line: CartLine): (id: int)
    ensures LineVariation(line) != 0 ==> id == LineVariation(line)
    ensures LineVariation(line) == 0 ==> id == line.productId
  {
    if LineVariation(line) != 0 then LineVariation(line) else line.productId
  }

  /** The checkout validation: the cart lines, among those the catalogue
      still knows, that another session holds. Off the checkout page it
      reports nothing. `inCatalogue` stands for the catalogue lookup. */
  function LockedCartLines(t: LockTable, onCheckout: bool, cart: seq<CartLine>,
                           inCatalogue: int -> bool, sessionId: string, now: int): (locked: seq<CartLine>)
    ensures forall l :: l in locked <==>
      && onCheckout && l in cart && inCatalogue(CatalogueId(l))
      && exists r :: r in t.rows && Blocks(r, l.productId, LineVariation(l), sessionId, now)
  {
    if !onCheckout then []
    else Filter(cart, l => inCatalogue(CatalogueId(l)) && IsProductLocked(t, l.productId, LineVariation(l), sessionId, now))
  }
}

=== FILE: results.dfy ===
/** Optional values and refusable outcomes shared by the reservation-lock model. */
module Results {

  /** An optional value: a query that may find nothing, a setting that may be unset. */
  datatype Option<+T> = None | Some(value: T) {

    /** The wrapped value, or `default` when there is none. */
    function GetOr(default: T): T {
      match this
      case Some(v) => v
      case None => default
    }
  }

  /** The outcome of a request that can be refused with an error. */
  datatype Result<+T, +E> = Ok(value: T) | Err(error: E)
}

=== FILE: seqs.dfy ===
/** Sequence helpers: the row filter behind every DELETE, the first-match
    search behind `$wpdb->get_row` (which takes the first row of a result
    in table order), and pairwise properties of rows. */
module Seqs {
  import opened Results

  /** The elements of `s` that `keep` accepts, in their original order. */
  function Filter<T(==,!new)>(s: seq<T>, keep: T -> bool): (r: seq<T>)
    ensures |r| <= |s|
    ensures forall x :: x in r <==> x in s && keep(x)
  {
    if |s| == 0 then []
    else
      assert s == [s[0]] + s[1..];
      if keep(s[0]) then [s[0]] + Filter(s[1..], keep)
      else Filter(s[1..], keep)
  }

  /** Filtering keeps every copy of an accepted element and no copy of a rejected one. */
  lemma {:induction false} FilterCount<T(!new)>(s: seq<T>, keep: T -> bool, x: T)
    ensures multiset(Filter(s, keep))[x] == if keep(x) then multiset(s)[x] else 0
  {
    if |s| > 0 {
      FilterCount(s[1..], keep, x);
      assert s == [s[0]] + s[1..];
    }
  }

  /** Filtering twice with the same predicate is filtering once. */
  lemma {:induction false} FilterIdempotent<T(!new)>(s: seq<T>, keep: T -> bool)
    ensures Filter(Filter(s, keep), keep) == Filter(s, keep)
  {
    if |s| > 0 {
      FilterIdempotent(s[1..], keep);
      if keep(s[0]) {
        var rest := Filter(s[1..], keep);
        assert ([s[0]] + rest)[0] == s[0];
        assert ([s[0]] + rest)[1..] == rest;
      }
    }
  }

  /** Filtering by a weaker predicate first changes nothing: `g` alone decides. */
  lemma {:induction false} FilterSubsumed<T(!new)>(s: seq<T>, f: T -> bool, g: T -> bool)
    requires forall x :: g(x) ==> f(x)
    ensures Filter(Filter(s, f), g) == Filter(s, g)
  {
    if |s| > 0 {
      FilterSubsumed(s[1..], f, g);
      if f(s[0]) {
        var rest := Filter(s[1..], f);
        assert ([s[0]] + rest)[0] == s[0];
        assert ([s[0]] + rest)[1..] == rest;
      }
    }
  }

  /** Two predicates that agree on the elements of `s` select the same elements. */
  lemma {:induction false} FilterCongruent<T(!new)>(s: seq<T>, keep: T -> bool, keep': T -> bool)
    requires forall x :: x in s ==> keep(x) == keep'(x)
    ensures Filter(s, keep) == Filter(s, keep')
  {
    if |s| > 0 {
      assert s == [s[0]] + s[1..];
      FilterCongruent(s[1..], keep, keep');
    }
  }

  /** Filtering distributes over concatenation. */
  lemma {:induction false} FilterAppend<T(!new)>(a: seq<T>, b: seq<T>, keep: T -> bool)
    ensures Filter(a + b, keep) == Filter(a, keep) + Filter(b, keep)
  {
    if |a| == 0 {
      assert a + b == b;
    } else {
      var ab := a + b;
      assert ab[0] == a[0];
      assert ab[1..] == a[1..] + b;
      FilterAppend(a[1..], b, keep);
      if keep(a[0]) {
        calc {
          Filter(ab, keep);
          [a[0]] + Filter(a[1..] + b, keep);
          [a[0]] + (Filter(a[1..], keep) + Filter(b, keep));
          ([a[0]] + Filter(a[1..], keep)) + Filter(b, keep);
        }
      }
    }
  }

  /** Two equally long sequences that agree on which positions `keep` accepts,
      and on the elements at those positions, filter to the same sequence. */
  lemma {:induction false} FilterPointwise<T(!new)>(a: seq<T>, b: seq<T>, keep: T -> bool)
    requires |a| == |b|
    requires forall i :: 0 <= i < |a| ==> keep(a[i]) == keep(b[i])
    requires forall i :: 0 <= i < |a| && keep(a[i]) ==> a[i] == b[i]
    ensures Filter(a, keep) == Filter(b, keep)
  {
    if |a| > 0 {
      FilterPointwise(a[1..], b[1..], keep);
    }
  }

  /** The index of the first element satisfying `P`, if any. */
  function FirstIndex<T>(s: seq<T>, P: T -> bool): (r: Option<nat>)
    ensures r.Some? ==> r.value < |s| && P(s[r.value])
    ensures r.Some? ==> forall j :: 0 <= j < r.value ==> !P(s[j])
    ensures r.None? ==> forall j :: 0 <= j < |s| ==> !P(s[j])
  {
    if |s| == 0 then None
    else if P(s[0]) then Some(0)
    else
      match FirstIndex(s[1..], P)
      case None => None
      case Some(i) => Some(i + 1)
  }

  /** `R` holds of every pair of elements taken in sequence order. */
  ghost predicate Pairwise<T>(s: seq<T>, R: (T, T) -> bool) {
    forall i, j :: 0 <= i < j < |s| ==> R(s[i], s[j])
  }

  /** Filtering keeps a pairwise property: the survivors are pairs of the original. */
  lemma {:induction false} FilterPairwise<T(!new)>(s: seq<T>, keep: T -> bool, R: (T, T) -> bool)
    requires Pairwise(s, R)
    ensures Pairwise(Filter(s, keep), R)
  {
    if |s| > 0 {
      var tail := s[1..];
      assert Pairwise(tail, R) by {
        forall i, j | 0 <= i < j < |tail| ensures R(tail[i], tail[j]) {
          assert tail[i] == s[i + 1] && tail[j] == s[j + 1];
        }
      }
      FilterPairwise(tail, keep, R);
      if keep(s[0]) {
        var rest := Filter(tail, keep);
        var r := [s[0]] + rest;
        forall i, j | 0 <= i < j < |r| ensures R(r[i], r[j]) {
          if i == 0 {
            assert r[j] == rest[j - 1];
            assert rest[j - 1] in tail;
            var k :| 0 <= k < |tail| && tail[k] == rest[j - 1];
            assert s[k + 1] == r[j];
          } else {
            assert r[i] == rest[i - 1] && r[j] == rest[j - 1];
          }
        }
      }
    }
  }
}
